=== FILE: README.md ===
# EIRA assistant core, modelled in Dafny

EIRA is a small desktop voice/text assistant (`eira.py`). A typed or spoken
command is routed by `handle_command` to one of four handlers:

- a Google search;
- opening `https://www.<site>.com`;
- closing the browser tab;
- as the fallback, a chat-completion reply.

Each handler speaks through `speak`, which is guarded by a global
`is_speaking` flag. This project models that decision logic as pure functions
and proves properties of it:

- `text.dfy` (module `Text`): the Python string operations the logic uses.
  These are the substring test, `split(sep, 1)[-1]`, `split`/`join`,
  non-overlapping `replace`, `strip()` over the full `str.isspace()` set, and
  ASCII `lower()`. `replace` is tied by lemmas to `split`/`join` and to a
  per-character reference definition. `strip()` is pinned down by a
  characterisation that is proved unique. `lower()` is specified character by
  character.
- `router.dfy` (module `Router`): the first-match intent classifier. Its
  priority order is search, then navigate, then close tab, then converse.
- `handlers.dfy` (module `Handlers`): each handler maps the command and the
  outcome of its external call (search result, chat completion) to the ordered
  actions it takes. `Dispatch` runs exactly the routed handler.
- `speech_gate.dfy` (module `SpeechGate`): the `speak` gate.
  - It holds the speaking flag and the set of transient audio files on disk.
  - Synthesis, playback and deletion are external steps. Their outcomes are
    parameters.
  - The cleanup is modelled twice: once as written and once as evidently
    intended. See Findings.
- `session.dfy` (module `Session`): one input event from admission to
  completion.
  - Admission covers `send_text`, `listen_voice` and `listen_command`, and
    their empty-input guards.
  - The dispatched actions are then carried out through the gate. The result
    is what the user observes: texts heard, chat-log lines, tabs opened and
    tabs closed.
  - Concrete scenarios are proved from the general lemmas.
- `wrappers.dfy` (module `Wrappers`): `Option`.

## Model

| member | source | states |
|---|---|---|
| Text.IndexOf | eira.py:180 | the result is the leftmost occurrence of the phrase; None means it occurs nowhere |
| Text.Contains | eira.py:180-184 | the Python `in` test on strings: true exactly when the phrase occurs at some index |
| Text.SuffixAfterFirst | eira.py:103 | `split(sep, 1)[-1]`: the whole text when sep is absent; otherwise the exact suffix after the leftmost sep |
| Text.Split | eira.py:87 | nothing on this line calls `split`; it is the reference definition for the line's `replace`: at least one part, and no part contains the separator |
| Text.JoinSplit | eira.py:87 | joining the parts of a split with the separator gives back the original text |
| Text.ReplaceAll | eira.py:87 | `replace` leaves a text without the pattern unchanged and never lengthens it when the replacement is no longer than the pattern |
| Text.ReplaceAllIsJoinSplit | eira.py:87 | `replace(pat, rep)` equals splitting on pat and joining with rep |
| Text.ReplaceAllSelf | eira.py:87 | replacing a pattern by itself changes nothing |
| Text.ReplaceLeading | eira.py:87 | removing a phrase from a text that starts with it, and holds it nowhere else, leaves exactly the rest |
| Text.ReplaceChar | eira.py:94 | reference one-character replacement: the character is gone when rep lacks it, and the length is kept for a one-character rep |
| Text.ReplaceCharRemoves | eira.py:103 | deleting a character drops exactly its occurrences and keeps every other character (as multisets) |
| Text.ReplaceAllOneChar | eira.py:94 | `replace` with a one-character pattern agrees with the reference definition |
| Text.ReplaceCharKeepsEnds | eira.py:103 | deleting a character keeps first and last characters that differ from it |
| Text.TrimStart | eira.py:87 | `lstrip`: the result is a suffix, the removed prefix is all whitespace, and the result does not start with whitespace |
| Text.TrimEnd | eira.py:87 | `rstrip`: the result is a prefix, the removed suffix is all whitespace, and the result does not end with whitespace |
| Text.Strip | eira.py:87 | `strip()`: the result is the input with whitespace-only ends removed, and it neither starts nor ends with whitespace |
| Text.StrippedAtUnique | eira.py:87 | that characterisation determines the result uniquely |
| Text.StripUnchanged | eira.py:87 | a text without whitespace at either end is returned unchanged |
| Text.StripIdempotent | eira.py:87 | stripping twice is stripping once |
| Text.StripOneLeadingSpace | eira.py:87 | a blank followed by a stripped word strips to the word |
| Text.ToLower | eira.py:77 | `lower()`: length kept, each ASCII capital becomes its own lower-case letter (code point + 32), every other character unchanged, no capital remains |
| Text.ToLowerConcat | eira.py:77 | lower-casing works character by character, so it distributes over concatenation |
| Text.ToLowerIdempotent | eira.py:77 | lower-casing twice is lower-casing once |
| Router.Rank | eira.py:180-186 | the position of each intent in the priority order; Converse is last |
| Router.FiresIff | eira.py:180-185 | each intent fires exactly when one of its trigger phrases is a substring |
| Router.Route | eira.py:178-186 | the routed intent fires (or is the fallback), and no intent of higher priority fires |
| Router.FirstMatchUnique | eira.py:180-186 | at most one intent satisfies the first-match condition, so routing is deterministic |
| Router.RoutingPolicy | eira.py:180-186 | each of the four outcomes in if-and-only-if form, trigger by trigger |
| Router.MissingChar | eira.py:180 | a phrase cannot occur in a text lacking one of its characters |
| Router.SearchBeatsOpen | eira.py:180-183 | a command holding both "google search" and "open" routes to search |
| Router.OpenInsideAWord | eira.py:182 | "open" inside a word ("opening") routes to navigation |
| Handlers.SearchQuery | eira.py:87 | the query is the command split on every "google search" and joined with nothing, then split on every "search for" and joined with nothing, then stripped; so every occurrence of each trigger is removed, in that order; it has no whitespace at either end, and a command without either trigger is only stripped |
| Handlers.QueryAfterTrigger | eira.py:87 | "google search" + blank + a trigger-free word searches for exactly that word |
| Handlers.QueryAfterSearchFor | eira.py:87 | "search for" + blank + a trigger-free word searches for exactly that word: the second `replace` removes the other trigger |
| Handlers.SnippetOf | eira.py:94 | the result's snippet when it has one, otherwise "No snippet available." |
| Handlers.SearchReply | eira.py:92-100 | the error reply iff the request failed or returned an empty list; otherwise "According to Google: " + the first snippet with every line break replaced by a blank, by the per-character reference, with no line break left; the sorry template when there are no items |
| Handlers.SnippetVerbatim | eira.py:93-95 | a snippet without line breaks is spoken verbatim after the prefix |
| Handlers.SearchActions | eira.py:83-100 | without credentials, only the not-configured notice; with them, exactly two utterances: "Searching Google for " + the query, then the reply for that query |
| Handlers.SearchAfterTrigger | eira.py:83-100 | a configured "google search" + blank + trigger-free text announces exactly that text and replies for it |
| Handlers.SiteName | eira.py:103 | the site name is the stripped text after the first "open" with every space deleted (by the per-character reference, and as multisets: exactly the spaces are gone); it has no whitespace at either end |
| Handlers.SiteAfterTrigger | eira.py:103 | "open" + blank + a word without blanks yields exactly that word |
| Handlers.RemoveSpacesKeepsEnds | eira.py:103 | removing spaces from a stripped text leaves no space and no whitespace at the ends |
| Handlers.SiteUrl | eira.py:105 | the address is "https://www." + site + ".com" by length, prefix and suffix |
| Handlers.UrlRoundTrip | eira.py:105 | the site name reads back out of its address, and only the address built from it reads back as that site |
| Handlers.NavigateActions | eira.py:102-109 | returns True iff the site name is non-empty; then "Opening <site>" is spoken, then a tab opens on an address whose site is that name; otherwise nothing happens |
| Handlers.AiReply | eira.py:29-41 | the not-configured text without a key, the brain-freeze text on any failure, otherwise the completion content |
| Handlers.ConverseActions | eira.py:186-190 | the thinking line, then "AI: " + reply in the log, then the same reply spoken, where the reply is `get_ai_response`'s result |
| Handlers.Handler | eira.py:180-190 | each intent runs exactly its own handler, with at most three actions |
| Handlers.Dispatch | eira.py:178-190 | the routed intent's handler, and no other, runs |
| Handlers.HandlerEffects | eira.py:83-113 | only the fallback starts with the thinking line; only navigation to a non-empty site opens a tab; only close-tab presses the shortcut |
| Handlers.DispatchEffects | eira.py:178-190 | the same three signatures hold of the handler `handle_command` dispatches, in terms of the routed intent |
| SpeechGate.Acquire | eira.py:45-47 | the call is refused iff the flag is set or the text is empty; otherwise the flag is set and the files are untouched |
| SpeechGate.Synthesize | eira.py:49-59 | the flag stays set; the file exists afterwards iff it existed or synthesis wrote it; no other file changes |
| SpeechGate.CleanupAsWritten | eira.py:60-68 | an OS error other than a permission error, on an existing file, leaves the flag set; every other path clears it |
| SpeechGate.Cleanup | eira.py:60-68 | the flag is cleared on every path; the file remains iff it existed and was not removed |
| SpeechGate.SpeakAsWritten | eira.py:43-68 | a held flag or empty text is a silent no-op; otherwise the flag stays set exactly when the deletion error escapes |
| SpeechGate.AgreesUnlessEscapes | eira.py:60-68 | whenever no deletion error escapes, the as-written and intended calls give the same result |
| SpeechGate.Speak | eira.py:43-68 | a no-op when held or empty; otherwise the flag is released, no other file changes, the file remains iff its deletion failed after it was written, and the text is heard iff playback completed |
| SpeechGate.NoSecondAcquire | eira.py:46-47 | once the flag is taken, a second entry is refused |
| SpeechGate.AsWrittenAgrees | eira.py:63-68 | when deletion succeeds or fails with a permission error, the as-written and intended cleanups agree |
| SpeechGate.GateStuckAsWritten | eira.py:63-68 | as written, another OS error during deletion leaves the flag set, and every later call is silent |
| SpeechGate.StuckGateExample | eira.py:63-68 | a concrete pair of calls in which the second utterance is lost |
| Session.Step | eira.py:43-47 | with the intended `speak`, one action never changes the flag's value and produces at most one observation |
| Session.StepAsWritten | eira.py:60-68 | with `speak` as written, the worker stops exactly when an utterance's deletion error escapes; the flag is then left set; otherwise the step is `Step` |
| Session.Perform | eira.py:178-190 | with the intended `speak`, a worker's actions keep the flag's value and produce at most one observation each |
| Session.PerformAsWritten | eira.py:178-190 | with `speak` as written: with the flag held on entry, every utterance is dropped and the rest happens; with it free, the worker ends with the flag held exactly when it parts from the intended worker (an escaping deletion error stopped it); what it shows is always a prefix of what the intended worker shows, at most one observation per action |
| Session.PerformAsWrittenAgrees | eira.py:63-68 | if no deletion fails with an error other than a permission error, the as-written worker behaves exactly like the modelled one |
| Session.NavigationAbortsAsWritten | eira.py:106-107 | as written, an escaping deletion error after "Opening <site>" leaves the flag set, and the tab is never opened |
| Session.PerformFree | eira.py:43-68 | with the flag clear, each action shows what the reference `Observe` says: a text is heard iff it is non-empty and its playback completed |
| Session.PerformHeld | eira.py:46 | with the flag held, every utterance is dropped and the log, tab and shortcut actions still happen |
| Session.LeftoverFiles | eira.py:63-67 | every file left behind was already there or is one whose deletion failed |
| Session.ListenCommand | eira.py:70-81 | the empty text on any capture failure; otherwise exactly the lower-cased transcript, with no capital left |
| Session.Admit | eira.py:164-176 | empty input is never dispatched; typed text is dispatched verbatim, logged as its one "You:" line; voice logs "Listening...", then "You: " + the command when one is dispatched, and that command is exactly `listen_command`'s lower-cased transcript |
| Session.Handle | eira.py:164-190 | an input that is not admitted only writes its log lines and leaves the flag alone |
| Session.ConverseObserved | eira.py:186-190 | the fallback logs the thinking line and the reply, then the reply is heard iff it is non-empty and played |
| Session.ConverseOrder | eira.py:186-190 | with a completion: the thinking line, the "AI:" line, then the reply heard, in that order |
| Session.ConverseFailure | eira.py:186-190 | a failed request logs and speaks the brain-freeze apology |
| Session.EmptyReplyNotSpoken | eira.py:186-190 | an empty completion is logged as "AI: " and never spoken |
| Session.TypedEcho | eira.py:164-169 | a typed command is echoed before its handler's observations |
| Session.VoiceEcho | eira.py:171-176 | a recognised voice command logs "[System] Listening..." and "You: " + the lower-cased transcript, then the handler of that lower-cased command runs |
| Session.NavigateObserved | eira.py:102-108 | navigation is heard, then the tab opens on the site's address |
| Session.TypedNavigation | eira.py:102-108 | a typed navigation command: echo, confirmation, tab |
| Session.OpenGithub | eira.py:102-108 | typing "open github" echoes it, says "Opening github" and opens https://www.github.com |
| Session.CloseTabScenario | eira.py:111-113 | "close tab": the confirmation is heard, then the shortcut is sent |
| Session.EspressoSearch | eira.py:83-95 | a search with one snippet announces the stripped query, then reads the snippet |
| Session.EspressoQuery | eira.py:87 | "google search best espresso machine" searches for "best espresso machine" |
| Session.RemovalOrder | eira.py:87 | the removal order is observable: "google search for x" searches for "for x" |
| Session.TypedInputIsCaseSensitive | eira.py:164-182 | "Open github" typed is a chat message, while spoken it becomes "open github" and navigates |

## Left out

- The tkinter window is reduced to its chat-log lines, in order. This covers the entry field, the animation, and the hand-off of each line through `root.after`.
- Threads and asyncio are reduced to one worker per input event, running alone. The program does start one thread per event. Its `is_speaking` flag is an unsynchronised check-then-set, so nothing here claims mutual exclusion between concurrent workers.
- Speech synthesis (edge_tts) and playback (pygame, with its polling loop) are external. Their outcome is a parameter. So is the timestamp-based file name, the `SpeechRun` artifact.
- The `print` calls to the console are not modelled, because they are not visible in the window.
- The music unload at line 61 is not modelled. Its guard tests `'pygame' in locals()`, but `pygame` is a module-level name, so that branch never runs.
- The startup greeting (line 144) and the initialisation log line (line 143) are not modelled. Both happen once, before any command.
- The HTTP request, the Google client and JSON decoding are not modelled. Each is reduced to the outcome the handler distinguishes: items, no `items` key, or an exception; a completion or a failure.
- A completion whose `content` is JSON `null` is not modelled. Line 38 then returns `None` without raising, so the `except` of line 39 never runs. The concatenation `"AI: " + reply` at line 189 then raises `TypeError` outside any `try`, and the worker ends after "[System] Thinking..." with no reply logged or spoken. `AiOutcome` has no case for it.
- Microphone capture and recognition are external and become `Recognition`.
- Errors from opening the microphone or from `adjust_for_ambient_noise` (lines 72 and 74) are raised outside the `try`, so `listen_command` raises instead of returning `""`. They are folded into `NotRecognized`. For `listen_voice` the end is the same: "Listening..." is logged and nothing is dispatched.
- A request that never returns is not modelled. Neither the chat-completion request (line 36) nor the search request (line 91) sets a timeout, so the worker can hang; `AiOutcome` and `SearchOutcome` only model requests that complete or fail.
- `webbrowser` and `pyautogui` are not modelled. They become the `OpenTab` and `PressCloseTab` actions.
- The environment variables are not modelled. They become the configuration flags in `Config`.
- Text.ToLower: only ASCII letters are lower-cased. Python's `lower()` also maps non-ASCII letters, and that Unicode table is not modelled.
- Text.ReplaceAll: only non-empty patterns are modelled. Every call site in the program replaces a non-empty constant.
- Text.Split: only non-empty separators are modelled, for the same reason.
- Session.Step: workers run their actions through the intended `SpeechGate.Speak`, not the as-written `speak`. As written, a deletion error other than a permission error leaves the flag set. Outside a `try` the error also raises out of `speak` and ends `handle_command`: after "Opening <site>" no tab opens (lines 106-107), and after the announcement at line 88 the search never runs. The search reply's `speak` (lines 95 and 97) is inside the `try` of line 89, so line 98 catches the error there; the apology of line 100 then returns at once because the flag is still set, and `handle_command` returns normally. The reply is the search's last action, so the user observes the same end either way. `Session.StepAsWritten` and `Session.PerformAsWritten` model that path, and `Session.PerformAsWrittenAgrees` shows the two agree whenever no such error occurs.
- Session.Perform: "the flag keeps its value" holds for the intended `speak` only, for the reason given for `Session.Step`.
- Session.PerformFree: matches `Observe` for the intended `speak` only. As written, an escaping deletion error silences the rest of the worker (see `Session.NavigationAbortsAsWritten`).

## Findings

| source | as written | input that shows it | evidently intended | confidence | as-written member | corrected member |
|---|---|---|---|---|---|---|
| eira.py:63-68 | the `finally` block catches only `PermissionError` from `os.remove`. Any other `OSError` escapes before `is_speaking = False`, so every later `speak` returns at once and the assistant goes silent. The same exception also escapes `speak`. Outside a `try` it ends the handler: after "Opening <site>" no tab is opened, and a search announced at line 88 is never run. For the search reply (lines 95, 97) the `except` of line 98 catches it, and the apology of line 100 is dropped because the flag is still set | the file exists at the check on line 63, then deleting it raises an `OSError` that is not a permission error (for example, it is removed by another process in between) | the flag is released on every exit path, whatever the deletion raised | low, not executed | SpeechGate.GateStuckAsWritten | SpeechGate.Speak |

=== FILE: handlers.dfy ===
/**
 * The four intent handlers and the dispatch of `handle_command`. Each handler
 * is a pure function from the command and the outcome of its external call to
 * the ordered list of actions it performs: the texts it passes to `speak`,
 * the lines it appends to the chat log, and the browser or keyboard actions.
 * The search service and the chat-completion service are abstract outcomes;
 * the credentials are boolean configuration flags.
 */
module Handlers {
  import opened Wrappers
  import opened Text
  import opened Router

  /** One externally visible step a handler takes, in order. */
  datatype Action =
    | Say(text: string)        // a call to `speak`
    | Show(line: string)       // a line appended to the chat log
    | OpenTab(url: string)     // the browser opens a new tab on `url`
    | PressCloseTab            // the close-tab keyboard shortcut

  /** Which credentials are present in the environment. */
  datatype Config = Config(aiKey: bool, searchKeys: bool)

  /** One search result; `snippet` is absent when the result has no snippet field. */
  datatype SearchItem = SearchItem(snippet: Option<string>)

  /** The outcome of the one search request. */
  datatype SearchOutcome =
    | Items(items: seq<SearchItem>)   // the response holds an `items` list
    | NoItems                         // the response has no `items` key
    | SearchFailed                    // building the client or the request raised

  /** The outcome of the one chat-completion request. */
  datatype AiOutcome =
    | Completion(content: string)     // the first choice's message content
    | AiFailed                        // transport, HTTP status or payload-shape error

  /** Everything outside the program that one command's handling depends on. */
  datatype World = World(config: Config, search: SearchOutcome, ai: AiOutcome)

  const SearchNotConfigured: string := "My Google Search is not configured."
  const SearchError: string := "I ran into an error while searching Google."
  const NoSnippet: string := "No snippet available."
  const AccordingToGoogle: string := "According to Google: "
  const SearchingPrefix: string := "Searching Google for "
  const NoResultsPrefix: string := "Sorry, I couldn't find any results for "
  const AiNotConfigured: string := "My AI brain isn't configured."
  const BrainFreeze: string := "Sorry, I had a brain freeze..."
  const Thinking: string := "[System] Thinking..."
  const ClosingTab: string := "Closing the tab."
  const OpeningPrefix: string := "Opening "
  const UrlPrefix: string := "https://www."
  const UrlSuffix: string := ".com"

  // ---------------------------------------------------------------- search

  /**
   * The query: every "google search" removed, then every "search for"
   * removed, then surrounding whitespace stripped. Each removal is stated
   * against the reference split-and-join, so no occurrence is left out.
   */
  function SearchQuery(cmd: string): (query: string)
    ensures query == [] || (!IsSpace(query[0]) && !IsSpace(query[|query| - 1]))
    ensures !Contains(cmd, GoogleSearch) && !Contains(cmd, SearchFor) ==> query == Strip(cmd)
    ensures query == Strip(Join(Split(Join(Split(cmd, GoogleSearch), ""), SearchFor), ""))
  {
    ReplaceAllIsJoinSplit(cmd, GoogleSearch, "");
    ReplaceAllIsJoinSplit(ReplaceAll(cmd, GoogleSearch, ""), SearchFor, "");
    Strip(ReplaceAll(ReplaceAll(cmd, GoogleSearch, ""), SearchFor, ""))
  }

  /**
   * A command that starts with "google search" and a blank, followed by text
   * holding neither trigger, searches for exactly that text.
   */
  lemma QueryAfterTrigger(w: string)
    requires w != [] && !IsSpace(w[0]) && !IsSpace(w[|w| - 1])
    requires !Contains([' '] + w, GoogleSearch) && !Contains([' '] + w, SearchFor)
    ensures SearchQuery(GoogleSearch + [' '] + w) == w
  {
    var rest := [' '] + w;
    assert GoogleSearch + [' '] + w == GoogleSearch + rest;
    ReplaceLeading(GoogleSearch, rest);
    assert ReplaceAll(rest, SearchFor, "") == rest;
    StripOneLeadingSpace(w);
  }

  /**
   * A command that starts with "search for" and a blank, followed by text
   * holding neither trigger, searches for exactly that text: the second
   * removal takes the trigger away.
   */
  lemma QueryAfterSearchFor(w: string)
    requires w != [] && !IsSpace(w[0]) && !IsSpace(w[|w| - 1])
    requires !Contains([' '] + w, GoogleSearch) && !Contains([' '] + w, SearchFor)
    ensures SearchQuery(SearchFor + [' '] + w) == w
  {
    var rest := [' '] + w;
    var cmd := SearchFor + rest;
    assert SearchFor + [' '] + w == cmd;
    forall i: nat | OccursAt(cmd, GoogleSearch, i)
      ensures false
    {
      assert cmd[i..i + |GoogleSearch|][0] == GoogleSearch[0] == 'g';
      assert cmd[i] == 'g';
      if i >= |SearchFor| {
        assert OccursAt(rest, GoogleSearch, i - |SearchFor|);
      }
    }
    assert ReplaceAll(cmd, GoogleSearch, "") == cmd;
    ReplaceLeading(SearchFor, rest);
    StripOneLeadingSpace(w);
  }

  /** The snippet of a result, with the default text when it has none. */
  function SnippetOf(item: SearchItem): (snippet: string)
    ensures item.snippet.Some? ==> snippet == item.snippet.value
    ensures item.snippet.None? ==> snippet == NoSnippet
  {
    item.snippet.GetOr(NoSnippet)
  }

  /** The spoken form of a snippet: the prefix, then the snippet with its line breaks turned into blanks. */
  lemma AccordingReply(snippet: string)
    ensures AccordingToGoogle + ReplaceAll(snippet, "\n", " ") == AccordingToGoogle + ReplaceChar(snippet, '\n', " ")
    ensures '\n' !in AccordingToGoogle + ReplaceAll(snippet, "\n", " ")
    ensures |AccordingToGoogle + ReplaceAll(snippet, "\n", " ")| == |AccordingToGoogle| + |snippet|
    ensures AccordingToGoogle + ReplaceAll(snippet, "\n", " ") != SearchError
  {
    ReplaceAllOneChar(snippet, '\n', " ");
    var r := AccordingToGoogle + ReplaceAll(snippet, "\n", " ");
    assert r[0] == 'A' && SearchError[0] == 'I';
  }

  /** The reply spoken once the search request has completed or failed. */
  function SearchReply(query: string, outcome: SearchOutcome): (reply: string)
    ensures reply == SearchError <==> outcome.SearchFailed? || (outcome.Items? && |outcome.items| == 0)
    ensures outcome.Items? && |outcome.items| > 0 ==>
      && AccordingToGoogle <= reply
      && '\n' !in reply
      && |reply| == |AccordingToGoogle| + |SnippetOf(outcome.items[0])|
    ensures outcome.Items? && |outcome.items| > 0 ==>
      reply == AccordingToGoogle + ReplaceChar(SnippetOf(outcome.items[0]), '\n', " ")
    ensures outcome.NoItems? ==> reply == NoResultsPrefix + query + "."
  {
    match outcome
    case Items(items) =>
      // an empty `items` list raises on indexing, which the handler reports as an error
      if |items| == 0 then SearchError
      else
        var snippet := SnippetOf(items[0]);
        AccordingReply(snippet);
        AccordingToGoogle + ReplaceAll(snippet, "\n", " ")
    case NoItems =>
      var r := NoResultsPrefix + query + ".";
      assert r[0] == 'S' && SearchError[0] == 'I';
      r
    case SearchFailed => SearchError
  }

  /** A snippet without line breaks is spoken back verbatim after the prefix. */
  lemma SnippetVerbatim(query: string, item: SearchItem, rest: seq<SearchItem>)
    requires '\n' !in SnippetOf(item)
    ensures SearchReply(query, Items([item] + rest)) == AccordingToGoogle + SnippetOf(item)
  {
    var snippet := SnippetOf(item);
    assert ([item] + rest)[0] == item;
    ReplaceAllOneChar(snippet, '\n', " ");
    ReplaceCharAbsent(snippet, '\n', " ");
  }

  /** `search_google`: the texts it speaks, in order. */
  function SearchActions(keys: bool, cmd: string, outcome: SearchOutcome): (actions: seq<Action>)
    ensures !keys ==> actions == [Say(SearchNotConfigured)]
    ensures keys ==> |actions| == 2 && actions[0].Say? && actions[1].Say?
    ensures keys ==> actions[0].text == SearchingPrefix + SearchQuery(cmd)
    ensures keys ==> actions[1].text == SearchReply(SearchQuery(cmd), outcome)
  {
    if !keys then [Say(SearchNotConfigured)]
    else
      var query := SearchQuery(cmd);
      [Say(SearchingPrefix + query), Say(SearchReply(query, outcome))]
  }

  /**
   * A configured search whose command is "google search", a blank and a
   * trigger-free text announces exactly that text and searches for it.
   */
  lemma SearchAfterTrigger(w: string, outcome: SearchOutcome)
    requires w != [] && !IsSpace(w[0]) && !IsSpace(w[|w| - 1])
    requires !Contains([' '] + w, GoogleSearch) && !Contains([' '] + w, SearchFor)
    ensures SearchActions(true, GoogleSearch + [' '] + w, outcome)
         == [Say(SearchingPrefix + w), Say(SearchReply(w, outcome))]
  {
    QueryAfterTrigger(w);
  }

  // ---------------------------------------------------------------- navigate

  /**
   * The site name: the text after the first "open", stripped, with every
   * space character removed (other whitespace inside it is kept).
   */
  function SiteName(cmd: string): (site: string)
    ensures ' ' !in site
    ensures site == [] || (!IsSpace(site[0]) && !IsSpace(site[|site| - 1]))
    ensures |site| <= |cmd|
    ensures site == ReplaceChar(Strip(SuffixAfterFirst(cmd, OpenTrigger)), ' ', [])
    ensures multiset(site) == multiset(Strip(SuffixAfterFirst(cmd, OpenTrigger)))[' ' := 0]
  {
    var stripped := Strip(SuffixAfterFirst(cmd, OpenTrigger));
    RemoveSpacesKeepsEnds(stripped);
    ReplaceAllOneChar(stripped, ' ', []);
    ReplaceCharRemoves(stripped, ' ');
    ReplaceAll(stripped, " ", "")
  }

  /** "open", a blank and a word without blanks opens exactly that word. */
  lemma SiteAfterTrigger(w: string)
    requires w != [] && !IsSpace(w[0]) && !IsSpace(w[|w| - 1]) && ' ' !in w
    ensures SiteName(OpenTrigger + [' '] + w) == w
  {
    var cmd := OpenTrigger + ([' '] + w);
    assert cmd == OpenTrigger + [' '] + w;
    assert cmd[0..|OpenTrigger|] == OpenTrigger;
    assert IndexOf(cmd, OpenTrigger) == Some(0);
    assert cmd[|OpenTrigger|..] == [' '] + w;
    StripOneLeadingSpace(w);
    MissingChar(w, " ", ' ');
  }

  /** Removing the spaces of a stripped text leaves its first and last characters in place. */
  lemma RemoveSpacesKeepsEnds(t: string)
    requires t == [] || (!IsSpace(t[0]) && !IsSpace(t[|t| - 1]))
    ensures var r := ReplaceAll(t, " ", "");
      && ' ' !in r
      && (r == [] || (!IsSpace(r[0]) && !IsSpace(r[|r| - 1])))
  {
    ReplaceAllOneChar(t, ' ', "");
    if t != [] {
      assert IsSpace(' ');
      ReplaceCharKeepsEnds(t, ' ');
    }
  }

  /** The address opened for a site name. */
  function SiteUrl(site: string): (url: string)
    ensures |url| == |UrlPrefix| + |site| + |UrlSuffix|
    ensures url[..|UrlPrefix|] == UrlPrefix && url[|url| - |UrlSuffix|..] == UrlSuffix
  {
    UrlPrefix + site + UrlSuffix
  }

  /** Reads the site name back out of an address of the form `SiteUrl` builds. */
  function SiteOfUrl(url: string): (site: Option<string>)
    ensures site.Some? ==> |url| >= |UrlPrefix| + |UrlSuffix|
  {
    if |url| >= |UrlPrefix| + |UrlSuffix|
       && url[..|UrlPrefix|] == UrlPrefix && url[|url| - |UrlSuffix|..] == UrlSuffix
    then Some(url[|UrlPrefix|..|url| - |UrlSuffix|])
    else None
  }

  /** The site name survives the round trip through its address, and only such addresses parse. */
  lemma UrlRoundTrip(site: string, url: string)
    ensures SiteOfUrl(SiteUrl(site)) == Some(site)
    ensures SiteOfUrl(url) == Some(site) ==> SiteUrl(site) == url
  {
    var u := SiteUrl(site);
    assert u[|UrlPrefix|..|u| - |UrlSuffix|] == site;
    if SiteOfUrl(url) == Some(site) {
      assert url == url[..|UrlPrefix|] + url[|UrlPrefix|..|url| - |UrlSuffix|] + url[|url| - |UrlSuffix|..];
    }
  }

  /** `open_any_website`: its actions and its boolean result. */
  function NavigateActions(cmd: string): (r: (seq<Action>, bool))
    ensures r.1 <==> SiteName(cmd) != []
    ensures !r.1 ==> r.0 == []
    ensures r.1 ==> |r.0| == 2 && r.0[0] == Say(OpeningPrefix + SiteName(cmd)) && r.0[1].OpenTab?
    ensures r.1 ==> SiteOfUrl(r.0[1].url) == Some(SiteName(cmd))
  {
    var site := SiteName(cmd);
    if site != [] then
      UrlRoundTrip(site, SiteUrl(site));
      ([Say(OpeningPrefix + site), OpenTab(SiteUrl(site))], true)
    else ([], false)
  }

  // ---------------------------------------------------------------- close tab

  /** `close_current_tab`: a confirmation, then the shortcut. */
  const CloseTabActions: seq<Action> := [Say(ClosingTab), PressCloseTab]

  // ---------------------------------------------------------------- converse

  /** `get_ai_response`: the reply text for a configuration flag and a request outcome. */
  function AiReply(aiKey: bool, outcome: AiOutcome): (reply: string)
    ensures !aiKey ==> reply == AiNotConfigured
    ensures aiKey && outcome.AiFailed? ==> reply == BrainFreeze
    ensures aiKey && outcome.Completion? ==> reply == outcome.content
  {
    if !aiKey then AiNotConfigured
    else match outcome
      case Completion(content) => content
      case AiFailed => BrainFreeze
  }

  /** The fallback branch: feedback, then the reply in the log, then the reply spoken. */
  function ConverseActions(aiKey: bool, outcome: AiOutcome): (actions: seq<Action>)
    ensures |actions| == 3 && actions[0] == Show(Thinking)
    ensures actions[1].Show? && actions[2].Say?
    ensures actions[1].line == "AI: " + actions[2].text
    ensures actions[2] == Say(AiReply(aiKey, outcome))
  {
    var reply := AiReply(aiKey, outcome);
    [Show(Thinking), Show("AI: " + reply), Say(reply)]
  }

  // ---------------------------------------------------------------- dispatch

  /** The handler of one intent: each branch of `handle_command` calls exactly one handler. */
  function Handler(intent: Intent, cmd: string, world: World): (actions: seq<Action>)
    ensures |actions| <= 3
    ensures intent == Search ==> actions == SearchActions(world.config.searchKeys, cmd, world.search)
    ensures intent == Navigate ==> actions == NavigateActions(cmd).0
    ensures intent == CloseTab ==> actions == CloseTabActions
    ensures intent == Converse ==> actions == ConverseActions(world.config.aiKey, world.ai)
  {
    match intent
    case Search => SearchActions(world.config.searchKeys, cmd, world.search)
    case Navigate => NavigateActions(cmd).0
    case CloseTab => CloseTabActions
    case Converse => ConverseActions(world.config.aiKey, world.ai)
  }

  /** `handle_command`: route the command, then run exactly that handler. */
  function Dispatch(cmd: string, world: World): (actions: seq<Action>)
    ensures |actions| <= 3
    ensures Route(cmd) == Search ==> actions == SearchActions(world.config.searchKeys, cmd, world.search)
    ensures Route(cmd) == Navigate ==> actions == NavigateActions(cmd).0
    ensures Route(cmd) == CloseTab ==> actions == CloseTabActions
    ensures Route(cmd) == Converse ==> actions == ConverseActions(world.config.aiKey, world.ai)
  {
    Handler(Route(cmd), cmd, world)
  }

  /** A tab is opened by some action. */
  predicate OpensTab(actions: seq<Action>) {
    exists k :: 0 <= k < |actions| && actions[k].OpenTab?
  }

  /** The visible signature of one action list, as `HandlerEffects` states it for an intent. */
  ghost predicate Signature(actions: seq<Action>, converse: bool, opens: bool, presses: bool) {
    && ((|actions| > 0 && actions[0] == Show(Thinking)) <==> converse)
    && (OpensTab(actions) <==> opens)
    && (PressCloseTab in actions <==> presses)
  }

  /**
   * Each handler's visible signature: only the fallback shows the thinking
   * line first, only navigation to a non-empty site opens a tab, and only the
   * close-tab handler presses the shortcut.
   */
  lemma HandlerEffects(intent: Intent, cmd: string, world: World)
    ensures Signature(Handler(intent, cmd, world),
                      intent == Converse, intent == Navigate && SiteName(cmd) != [], intent == CloseTab)
  {
    match intent
    case Search => SearchSignature(world.config.searchKeys, cmd, world.search);
    case Navigate => NavigateSignature(cmd);
    case CloseTab => CloseTabSignature();
    case Converse => ConverseSignature(world.config.aiKey, world.ai);
  }

  lemma SearchSignature(keys: bool, cmd: string, outcome: SearchOutcome)
    ensures Signature(SearchActions(keys, cmd, outcome), false, false, false)
  {
    var s := SearchActions(keys, cmd, outcome);
    if keys {
      AllSay(s[0], s[1]);
      assert s == [s[0], s[1]];
    } else {
      AllSay(s[0], s[0]);
      assert s == [s[0]];
    }
  }

  lemma AllSay(a: Action, b: Action)
    requires a.Say? && b.Say?
    ensures Signature([a, b], false, false, false) && Signature([a], false, false, false)
  {
  }

  lemma NavigateSignature(cmd: string)
    ensures Signature(NavigateActions(cmd).0, false, SiteName(cmd) != [], false)
  {
    var n := NavigateActions(cmd);
    if n.1 {
      SayThenOpenTab(n.0[0], n.0[1]);
      assert n.0 == [n.0[0], n.0[1]];
    } else {
      assert Signature([], false, false, false);
    }
  }

  lemma SayThenOpenTab(a: Action, b: Action)
    requires a.Say? && b.OpenTab?
    ensures Signature([a, b], false, true, false)
  {
    assert [a, b][1].OpenTab?;
  }

  lemma CloseTabSignature()
    ensures Signature(CloseTabActions, false, false, true)
  {
    assert !CloseTabActions[0].OpenTab? && !CloseTabActions[1].OpenTab?;
  }

  lemma ConverseSignature(aiKey: bool, outcome: AiOutcome)
    ensures Signature(ConverseActions(aiKey, outcome), true, false, false)
  {
    var c := ConverseActions(aiKey, outcome);
    assert c[0].Show? && c[1].Show? && c[2].Say?;
  }

  /** The dispatched handler is recognisable from its actions alone. */
  lemma DispatchEffects(cmd: string, world: World)
    ensures var actions := Dispatch(cmd, world);
      && ((|actions| > 0 && actions[0] == Show(Thinking)) <==> Route(cmd) == Converse)
      && (OpensTab(actions) <==> Route(cmd) == Navigate && SiteName(cmd) != [])
      && (PressCloseTab in actions <==> Route(cmd) == CloseTab)
  {
    HandlerEffects(Route(cmd), cmd, world);
  }
}

=== FILE: router.dfy ===
/**
 * The intent router of `handle_command`: a total, first-match classifier over
 * the command string. Trigger phrases are matched as substrings in a fixed
 * priority order; the first intent whose trigger occurs wins even when a
 * later one would also match.
 */
module Router {
  import opened Text

  datatype Intent = Search | Navigate | CloseTab | Converse

  /** The intents that have trigger phrases, highest priority first. Converse is the fallback. */
  const Priority: seq<Intent> := [Search, Navigate, CloseTab]

  const GoogleSearch: string := "google search"
  const SearchFor: string := "search for"
  const OpenTrigger: string := "open"
  const CloseTabTrigger: string := "close tab"

  /** The trigger phrases of each intent. */
  function Triggers(intent: Intent): seq<string> {
    match intent
    case Search => [GoogleSearch, SearchFor]
    case Navigate => [OpenTrigger]
    case CloseTab => [CloseTabTrigger]
    case Converse => []
  }

  /** Position of an intent in the priority order; Converse comes after all of them. */
  function Rank(intent: Intent): (n: nat)
    ensures n < |Priority| ==> Priority[n] == intent
    ensures n == |Priority| <==> intent == Converse
  {
    match intent
    case Search => 0
    case Navigate => 1
    case CloseTab => 2
    case Converse => 3
  }

  /** Some trigger phrase of `intent` occurs in `cmd`. */
  ghost predicate Fires(intent: Intent, cmd: string) {
    exists k :: 0 <= k < |Triggers(intent)| && Contains(cmd, Triggers(intent)[k])
  }

  /**
   * `intent` is the first-match classification of `cmd`: it fires (or is the
   * fallback), and no intent of higher priority fires.
   */
  ghost predicate FirstMatch(cmd: string, intent: Intent) {
    && (intent == Converse || Fires(intent, cmd))
    && forall k :: 0 <= k < Rank(intent) ==> !Fires(Priority[k], cmd)
  }

  /** Each intent fires exactly when one of its listed phrases occurs. */
  lemma FiresIff(cmd: string)
    ensures Fires(Search, cmd) <==> Contains(cmd, GoogleSearch) || Contains(cmd, SearchFor)
    ensures Fires(Navigate, cmd) <==> Contains(cmd, OpenTrigger)
    ensures Fires(CloseTab, cmd) <==> Contains(cmd, CloseTabTrigger)
    ensures !Fires(Converse, cmd)
  {
    assert Triggers(Search)[0] == GoogleSearch && Triggers(Search)[1] == SearchFor;
    assert Triggers(Navigate)[0] == OpenTrigger;
    assert Triggers(CloseTab)[0] == CloseTabTrigger;
  }

  /** The routing decision of `handle_command`. */
  function Route(cmd: string): (intent: Intent)
    ensures FirstMatch(cmd, intent)
  {
    FiresIff(cmd);
    assert Priority == [Search, Navigate, CloseTab];
    if Contains(cmd, GoogleSearch) || Contains(cmd, SearchFor) then Search
    else if Contains(cmd, OpenTrigger) then Navigate
    else if Contains(cmd, CloseTabTrigger) then CloseTab
    else Converse
  }

  /** At most one intent is the first match of a command, so routing is deterministic. */
  lemma FirstMatchUnique(cmd: string, a: Intent, b: Intent)
    requires FirstMatch(cmd, a) && FirstMatch(cmd, b)
    ensures a == b
  {
    assert Rank(a) < |Priority| ==> Priority[Rank(a)] == a;
    assert Rank(b) < |Priority| ==> Priority[Rank(b)] == b;
    assert Rank(a) >= Rank(b);
    assert Rank(b) >= Rank(a);
  }

  /** The tie-break policy spelled out trigger by trigger. */
  lemma RoutingPolicy(cmd: string)
    ensures Route(cmd) == Search <==> Contains(cmd, GoogleSearch) || Contains(cmd, SearchFor)
    ensures Route(cmd) == Navigate <==>
      !Contains(cmd, GoogleSearch) && !Contains(cmd, SearchFor) && Contains(cmd, OpenTrigger)
    ensures Route(cmd) == CloseTab <==>
      && !Contains(cmd, GoogleSearch) && !Contains(cmd, SearchFor)
      && !Contains(cmd, OpenTrigger) && Contains(cmd, CloseTabTrigger)
    ensures Route(cmd) == Converse <==> forall k :: 0 <= k < |Priority| ==> !Fires(Priority[k], cmd)
  {
    assert |Priority| == 3 && Priority[0] == Search && Priority[1] == Navigate && Priority[2] == CloseTab;
    FiresIff(cmd);
  }

  /** A phrase occurs in a text that holds it at a known position. */
  lemma ContainsAt(s: string, pat: string, i: nat)
    requires OccursAt(s, pat, i)
    ensures Contains(s, pat)
  {
  }

  /** A phrase cannot occur in a text that lacks one of its characters. */
  lemma MissingChar(s: string, pat: string, c: char)
    requires c in pat && c !in s
    ensures !Contains(s, pat)
  {
    var k :| 0 <= k < |pat| && pat[k] == c;
    forall i: nat ensures !OccursAt(s, pat, i) {
      if i + |pat| <= |s| {
        assert s[i..i + |pat|][k] == s[i + k];
      }
    }
  }

  /**
   * An overlapping command is resolved by priority: a search trigger beats a
   * later "open" in the same command.
   */
  lemma SearchBeatsOpen(cmd: string)
    requires cmd == "google search near me open maps"
    ensures Route(cmd) == Search
  {
    assert cmd[0..13] == GoogleSearch;
    ContainsAt(cmd, GoogleSearch, 0);
  }

  /** Any word containing "open" routes to Navigate, whatever else the command says. */
  lemma OpenInsideAWord(cmd: string)
    requires cmd == "tell me about opening hours"
    ensures Route(cmd) == Navigate
  {
    assert 'c' !in cmd && 'f' !in cmd;
    MissingChar(cmd, GoogleSearch, 'c');
    MissingChar(cmd, SearchFor, 'f');
    assert cmd[14..18] == OpenTrigger;
    ContainsAt(cmd, OpenTrigger, 14);
  }
}

=== FILE: session.dfy ===
/**
 * One unit of work of the assistant: an input event is admitted (typed text
 * or a voice capture), the admitted command is dispatched, and the handler's
 * actions are carried out in order, each `speak` going through the speech
 * gate. What the user observes is a list of heard texts, chat-log lines,
 * opened addresses and tab closings.
 *
 * The thread per event, the hand-off of log lines to the window's event loop
 * and the interleaving of concurrent workers are not modelled: a worker here
 * runs alone, starting from whatever gate state it finds.
 */
module Session {
  import opened Wrappers
  import opened Text
  import opened Router
  import opened SpeechGate
  import opened Handlers

  datatype Observation =
    | Heard(text: string)      // a text synthesised and played to the end
    | Logged(line: string)     // a line in the chat log
    | Browsed(url: string)     // a browser tab opened on `url`
    | TabClosed                // the close-tab shortcut sent

  // ---------------------------------------------------------------- performing actions

  /** One action; `run` is the speech environment, used only when the action speaks. */
  function Step(g: Gate, action: Action, run: SpeechRun): (r: (Gate, seq<Observation>))
    ensures r.0.speaking == g.speaking
    ensures |r.1| <= 1
  {
    match action
    case Say(text) =>
      var s := Speak(g, text, run);
      (s.gate, if s.audible then [Heard(text)] else [])
    case Show(line) => (g, [Logged(line)])
    case OpenTab(url) => (g, [Browsed(url)])
    case PressCloseTab => (g, [TabClosed])
  }

  /** A worker's actions in order; `runs[k]` is the speech environment of `actions[k]`. */
  function Perform(g: Gate, actions: seq<Action>, runs: seq<SpeechRun>): (r: (Gate, seq<Observation>))
    requires |runs| >= |actions|
    ensures r.0.speaking == g.speaking
    ensures |r.1| <= |actions|
    decreases |actions|
  {
    if |actions| == 0 then (g, [])
    else
      var first := Step(g, actions[0], runs[0]);
      var rest := Perform(first.0, actions[1..], runs[1..]);
      (rest.0, first.1 + rest.1)
  }

  /**
   * Reference: what one action shows when its worker found the gate free.
   * A text is heard exactly when it is non-empty and its playback completed.
   */
  function Observe(action: Action, run: SpeechRun): seq<Observation> {
    match action
    case Say(text) => if text != "" && run.synthesis == Played then [Heard(text)] else []
    case Show(line) => [Logged(line)]
    case OpenTab(url) => [Browsed(url)]
    case PressCloseTab => [TabClosed]
  }

  /** Reference: what a worker produces when it finds the gate free. */
  function Expected(actions: seq<Action>, runs: seq<SpeechRun>): seq<Observation>
    requires |runs| >= |actions|
    decreases |actions|
  {
    if |actions| == 0 then []
    else Observe(actions[0], runs[0]) + Expected(actions[1..], runs[1..])
  }

  /** Reference: what one action shows while another worker holds the gate: no speech. */
  function Unspoken(action: Action): seq<Observation> {
    match action
    case Say(_) => []
    case Show(line) => [Logged(line)]
    case OpenTab(url) => [Browsed(url)]
    case PressCloseTab => [TabClosed]
  }

  /** Reference: what a worker produces while another holds the gate. */
  function Muted(actions: seq<Action>): seq<Observation>
    decreases |actions|
  {
    if |actions| == 0 then []
    else Unspoken(actions[0]) + Muted(actions[1..])
  }

  /** `Expected` of a short action list, one action at a time. */
  lemma ExpectedOfFew(actions: seq<Action>, runs: seq<SpeechRun>)
    requires |runs| >= |actions| && |actions| <= 3
    ensures |actions| == 1 ==> Expected(actions, runs) == Observe(actions[0], runs[0])
    ensures |actions| == 2 ==> Expected(actions, runs) == Observe(actions[0], runs[0]) + Observe(actions[1], runs[1])
    ensures |actions| == 3 ==>
              Expected(actions, runs)
              == Observe(actions[0], runs[0]) + Observe(actions[1], runs[1]) + Observe(actions[2], runs[2])
  {
    if |actions| > 0 {
      var a1, r1 := actions[1..], runs[1..];
      if |a1| > 0 {
        var a2, r2 := a1[1..], r1[1..];
        if |a2| > 0 {
          assert Expected(a2[1..], r2[1..]) == [];
          assert Expected(a2, r2) == Observe(a2[0], r2[0]) + [];
        }
      }
    }
  }

  /** With the gate free, each `speak` takes and releases it, so every audible text is heard. */
  lemma {:induction false} PerformFree(g: Gate, actions: seq<Action>, runs: seq<SpeechRun>)
    requires |runs| >= |actions| && !g.speaking
    ensures Perform(g, actions, runs).1 == Expected(actions, runs)
    decreases |actions|
  {
    if |actions| > 0 {
      var first := Step(g, actions[0], runs[0]);
      PerformFree(first.0, actions[1..], runs[1..]);
    }
  }

  /** With the gate held elsewhere, every `speak` is dropped and nothing else changes. */
  lemma {:induction false} PerformHeld(g: Gate, actions: seq<Action>, runs: seq<SpeechRun>)
    requires |runs| >= |actions| && g.speaking
    ensures Perform(g, actions, runs) == (g, Muted(actions))
    decreases |actions|
  {
    if |actions| > 0 {
      PerformHeld(g, actions[1..], runs[1..]);
    }
  }

  /**
   * Every file a completed worker leaves behind was already there or is one
   * whose deletion failed.
   */
  lemma {:induction false} LeftoverFiles(g: Gate, actions: seq<Action>, runs: seq<SpeechRun>, a: string)
    requires |runs| >= |actions|
    requires a in Perform(g, actions, runs).0.artifacts
    ensures a in g.artifacts || exists k :: 0 <= k < |actions| && runs[k].artifact == a && runs[k].removal != Removed
    decreases |actions|
  {
    if |actions| > 0 {
      var first := Step(g, actions[0], runs[0]);
      LeftoverFiles(first.0, actions[1..], runs[1..], a);
      if a !in g.artifacts && a in first.0.artifacts {
        assert runs[0].artifact == a && runs[0].removal != Removed;
      } else if a !in first.0.artifacts {
        var k :| 0 <= k < |actions[1..]| && runs[1..][k].artifact == a && runs[1..][k].removal != Removed;
        assert runs[k + 1].artifact == a;
      }
    }
  }

  // ---------------------------------------------------------------- as written

  /**
   * One action with `speak` as written. The third component is true when a
   * deletion error escaped `speak`; the worker then takes no further action
   * anyone can observe. Outside a `try` (eira.py:85, 88, 100, 106, 112, 190) the
   * exception ends `handle_command`. The search reply's `speak` (eira.py:95,
   * 97) sits inside the `try` of eira.py:89 instead: its handler catches the
   * error, and the apology of eira.py:100 is dropped because the flag is still
   * set. The reply is the search's last action, so both paths end the same.
   * A text whose playback completed was heard before the error.
   */
  function StepAsWritten(g: Gate, action: Action, run: SpeechRun): (r: (Gate, seq<Observation>, bool))
    ensures r.2 <==> action.Say? && EscapesAsWritten(g, action.text, run)
    ensures r.2 ==> r.0.speaking && r.1 == (if run.synthesis == Played then [Heard(action.text)] else [])
    ensures !r.2 ==> (r.0, r.1) == Step(g, action, run)
  {
    match action
    case Say(text) =>
      var s := SpeakAsWritten(g, text, run);
      var heard := if s.audible then [Heard(text)] else [];
      if EscapesAsWritten(g, text, run) then (s.gate, heard, true)
      else
        AgreesUnlessEscapes(g, text, run);
        (s.gate, heard, false)
    case _ =>
      var st := Step(g, action, run);
      (st.0, st.1, false)
  }

  /**
   * A worker's actions with `speak` as written: an escaping deletion error
   * ends the worker with the gate still held. With the gate held on entry
   * it is the muted worker; with it free, it ends with the gate held exactly
   * when it parts from the modelled worker, and what it shows is always a
   * prefix of what the modelled worker shows.
   */
  function PerformAsWritten(g: Gate, actions: seq<Action>, runs: seq<SpeechRun>): (r: (Gate, seq<Observation>))
    requires |runs| >= |actions|
    ensures |r.1| <= |actions|
    ensures g.speaking ==> r == (g, Muted(actions))
    ensures !g.speaking ==> (r.0.speaking <==> r != Perform(g, actions, runs))
    ensures r.1 <= Perform(g, actions, runs).1
    decreases |actions|
  {
    if |actions| == 0 then (g, [])
    else
      var first := StepAsWritten(g, actions[0], runs[0]);
      if first.2 then (first.0, first.1)
      else
        var rest := PerformAsWritten(first.0, actions[1..], runs[1..]);
        (rest.0, first.1 + rest.1)
  }

  /** Where no deletion fails with an error other than a permission error, the as-written worker is the modelled one. */
  lemma {:induction false} PerformAsWrittenAgrees(g: Gate, actions: seq<Action>, runs: seq<SpeechRun>)
    requires |runs| >= |actions|
    requires forall k :: 0 <= k < |actions| ==> runs[k].removal != OtherOsError
    ensures PerformAsWritten(g, actions, runs) == Perform(g, actions, runs)
    decreases |actions|
  {
    if |actions| > 0 {
      var first := StepAsWritten(g, actions[0], runs[0]);
      assert !first.2;
      assert forall k :: 0 <= k < |actions[1..]| ==> runs[1..][k].removal == runs[k + 1].removal;
      PerformAsWrittenAgrees(first.0, actions[1..], runs[1..]);
    }
  }

  /**
   * As written, an escaping deletion error during the navigation confirmation
   * leaves the gate held and the tab is never opened.
   */
  lemma NavigationAbortsAsWritten(g: Gate, cmd: string, world: World, runs: seq<SpeechRun>)
    requires Route(cmd) == Navigate && SiteName(cmd) != []
    requires |runs| >= 3 && !g.speaking && runs[0].synthesis == Played && runs[0].removal == OtherOsError
    ensures PerformAsWritten(g, Dispatch(cmd, world), runs).0.speaking
    ensures PerformAsWritten(g, Dispatch(cmd, world), runs).1 == [Heard(OpeningPrefix + SiteName(cmd))]
  {
    var acts := Dispatch(cmd, world);
    assert acts[0] == Say(OpeningPrefix + SiteName(cmd));
    assert EscapesAsWritten(g, OpeningPrefix + SiteName(cmd), runs[0]);
  }

  // ---------------------------------------------------------------- admission

  /** The outcome of one voice capture. */
  datatype Recognition =
    | Recognized(text: string)  // the recogniser returned this text
    | NotRecognized             // capture or recognition raised (silence, ambiguity, network)

  /** `listen_command`: the lower-cased transcript, or empty on any failure. */
  function ListenCommand(rec: Recognition): (cmd: string)
    ensures rec.NotRecognized? ==> cmd == ""
    ensures rec.Recognized? ==> |cmd| == |rec.text|
    ensures forall k :: 0 <= k < |cmd| ==> !IsAsciiUpper(cmd[k])
    ensures rec.Recognized? ==> cmd == ToLower(rec.text)
  {
    match rec
    case Recognized(text) => ToLower(text)
    case NotRecognized => ""
  }

  /** An input event: a submission of the entry field, or a completed voice capture. */
  datatype Submission = Typed(text: string) | Voice(rec: Recognition)

  const Listening: string := "[System] Listening..."
  const YouPrefix: string := "You: "

  /**
   * `send_text` and `listen_voice`: the log lines written before dispatch and
   * the command dispatched, if any. Empty input is never dispatched.
   */
  function Admit(sub: Submission): (r: (seq<string>, Option<string>))
    ensures r.1.Some? ==> r.1.value != [] && |r.0| > 0 && r.0[|r.0| - 1] == YouPrefix + r.1.value
    ensures sub.Typed? ==> (r.1.Some? <==> sub.text != []) && (r.1.Some? ==> r.1.value == sub.text)
    ensures sub.Typed? && sub.text == [] ==> r.0 == []
    ensures sub.Voice? ==> |r.0| >= 1 && r.0[0] == Listening
    ensures sub.Voice? ==> (r.1.Some? <==> sub.rec.Recognized? && sub.rec.text != [])
    ensures sub.Voice? && r.1.Some? ==> r.1.value == ListenCommand(sub.rec)
    ensures sub.Typed? ==> r.0 == (if sub.text != [] then [YouPrefix + sub.text] else [])
    ensures sub.Voice? ==> r.0 == [Listening] + (if r.1.Some? then [YouPrefix + r.1.value] else [])
  {
    match sub
    case Typed(text) =>
      if text != [] then ([YouPrefix + text], Some(text)) else ([], None)
    case Voice(rec) =>
      var cmd := ListenCommand(rec);
      if cmd != [] then ([Listening, YouPrefix + cmd], Some(cmd)) else ([Listening], None)
  }

  function LogAll(lines: seq<string>): (obs: seq<Observation>)
    ensures |obs| == |lines|
    ensures forall k :: 0 <= k < |lines| ==> obs[k] == Logged(lines[k])
  {
    seq(|lines|, k requires 0 <= k < |lines| => Logged(lines[k]))
  }

  /** One input event handled to completion by its worker. */
  function Handle(g: Gate, sub: Submission, world: World, runs: seq<SpeechRun>): (r: (Gate, seq<Observation>))
    requires |runs| >= 3
    ensures r.0.speaking == g.speaking
    ensures Admit(sub).1.None? ==> r == (g, LogAll(Admit(sub).0))
  {
    var (lines, cmd) := Admit(sub);
    match cmd
    case None => (g, LogAll(lines))
    case Some(c) =>
      var done := Perform(g, Dispatch(c, world), runs);
      (done.0, LogAll(lines) + done.1)
  }

  // ---------------------------------------------------------------- scenarios

  /** The observations of the fallback branch, for a given reply, with the gate free. */
  lemma ConverseObserved(g: Gate, cmd: string, world: World, runs: seq<SpeechRun>, reply: string)
    requires |runs| >= 3 && !g.speaking && Route(cmd) == Converse
    requires reply == AiReply(world.config.aiKey, world.ai)
    ensures Perform(g, Dispatch(cmd, world), runs).1
         == [Logged(Thinking), Logged("AI: " + reply)]
          + (if reply != [] && runs[2].synthesis == Played then [Heard(reply)] else [])
  {
    var acts := Dispatch(cmd, world);
    assert acts == [Show(Thinking), Show("AI: " + reply), Say(reply)];
    PerformFree(g, acts, runs);
    ExpectedOfFew(acts, runs);
  }

  /**
   * The fallback branch shows the thinking line, then the reply, and only
   * then speaks the reply.
   */
  lemma ConverseOrder(g: Gate, cmd: string, world: World, runs: seq<SpeechRun>)
    requires |runs| >= 3 && !g.speaking && Route(cmd) == Converse
    requires world.config.aiKey && world.ai.Completion? && world.ai.content != []
    requires runs[2].synthesis == Played
    ensures Perform(g, Dispatch(cmd, world), runs).1
         == [Logged(Thinking), Logged("AI: " + world.ai.content), Heard(world.ai.content)]
  {
    ConverseObserved(g, cmd, world, runs, world.ai.content);
  }

  /** A failing chat service yields the fixed apology, logged and spoken. */
  lemma ConverseFailure(g: Gate, cmd: string, world: World, runs: seq<SpeechRun>)
    requires |runs| >= 3 && !g.speaking && Route(cmd) == Converse
    requires world.config.aiKey && world.ai.AiFailed? && runs[2].synthesis == Played
    ensures Perform(g, Dispatch(cmd, world), runs).1
         == [Logged(Thinking), Logged("AI: " + BrainFreeze), Heard(BrainFreeze)]
  {
    assert BrainFreeze != [];
    ConverseObserved(g, cmd, world, runs, BrainFreeze);
  }

  /** An empty completion is logged but never spoken, since `speak("")` does nothing. */
  lemma EmptyReplyNotSpoken(g: Gate, cmd: string, world: World, runs: seq<SpeechRun>)
    requires |runs| >= 3 && !g.speaking && Route(cmd) == Converse
    requires world.config.aiKey && world.ai == Completion("")
    ensures Perform(g, Dispatch(cmd, world), runs).1 == [Logged(Thinking), Logged("AI: ")]
  {
    assert AiReply(world.config.aiKey, world.ai) == "";
    ConverseObserved(g, cmd, world, runs, "");
    assert "AI: " + "" == "AI: ";
  }

  /**
   * A typed command that navigates: the input is echoed, the confirmation is
   * heard, then the tab opens.
   */
  lemma TypedNavigation(g: Gate, cmd: string, world: World, runs: seq<SpeechRun>)
    requires cmd != [] && Route(cmd) == Navigate && SiteName(cmd) != []
    requires |runs| >= 3 && !g.speaking && runs[0].synthesis == Played
    ensures Handle(g, Typed(cmd), world, runs).1
         == [Logged(YouPrefix + cmd), Heard(OpeningPrefix + SiteName(cmd)), Browsed(SiteUrl(SiteName(cmd)))]
  {
    TypedEcho(g, cmd, world, runs);
    NavigateObserved(g, cmd, world, runs);
  }

  /** A typed, non-empty command is echoed to the log before its handler's observations. */
  lemma TypedEcho(g: Gate, cmd: string, world: World, runs: seq<SpeechRun>)
    requires cmd != [] && |runs| >= 3
    ensures Handle(g, Typed(cmd), world, runs).1
         == [Logged(YouPrefix + cmd)] + Perform(g, Dispatch(cmd, world), runs).1
  {
    assert Admit(Typed(cmd)) == ([YouPrefix + cmd], Some(cmd));
    assert LogAll([YouPrefix + cmd]) == [Logged(YouPrefix + cmd)];
  }

  /**
   * A recognised, non-empty voice command logs "Listening..." and the
   * lower-cased command before its handler's observations.
   */
  lemma VoiceEcho(g: Gate, t: string, world: World, runs: seq<SpeechRun>)
    requires ToLower(t) != [] && |runs| >= 3
    ensures Handle(g, Voice(Recognized(t)), world, runs).1
         == [Logged(Listening), Logged(YouPrefix + ToLower(t))] + Perform(g, Dispatch(ToLower(t), world), runs).1
  {
    var cmd := ToLower(t);
    assert Admit(Voice(Recognized(t))) == ([Listening, YouPrefix + cmd], Some(cmd));
    assert LogAll([Listening, YouPrefix + cmd]) == [Logged(Listening), Logged(YouPrefix + cmd)];
  }

  /** With the gate free, navigation is heard and then the tab opens. */
  lemma NavigateObserved(g: Gate, cmd: string, world: World, runs: seq<SpeechRun>)
    requires Route(cmd) == Navigate && SiteName(cmd) != []
    requires |runs| >= 3 && !g.speaking && runs[0].synthesis == Played
    ensures Perform(g, Dispatch(cmd, world), runs).1
         == [Heard(OpeningPrefix + SiteName(cmd)), Browsed(SiteUrl(SiteName(cmd)))]
  {
    var site := SiteName(cmd);
    var acts := Dispatch(cmd, world);
    assert acts == NavigateActions(cmd).0;
    UrlRoundTrip(site, acts[1].url);
    assert acts == [Say(OpeningPrefix + site), OpenTab(SiteUrl(site))];
    SayThenOpen(g, acts, runs, OpeningPrefix + site, SiteUrl(site));
  }

  /** A text spoken with the gate free is heard before the tab that follows it opens. */
  lemma SayThenOpen(g: Gate, actions: seq<Action>, runs: seq<SpeechRun>, text: string, url: string)
    requires |runs| >= 3 && !g.speaking && runs[0].synthesis == Played
    requires actions == [Say(text), OpenTab(url)] && text != []
    ensures Perform(g, actions, runs).1 == [Heard(text), Browsed(url)]
  {
    PerformFree(g, actions, runs);
    ExpectedOfFew(actions, runs);
  }

  /** Typing "open github": the input is echoed, "Opening github" is heard, then the tab opens. */
  lemma OpenGithub(g: Gate, cmd: string, world: World, runs: seq<SpeechRun>)
    requires cmd == "open github"
    requires |runs| >= 3 && !g.speaking && runs[0].synthesis == Played
    ensures Handle(g, Typed(cmd), world, runs).1
         == [Logged("You: open github"), Heard("Opening github"), Browsed("https://www.github.com")]
  {
    GithubRoute(cmd);
    var site := GithubSite(cmd);
    TypedNavigation(g, cmd, world, runs);
    GithubTexts(cmd, site);
  }

  lemma GithubRoute(cmd: string)
    requires cmd == "open github"
    ensures Route(cmd) == Navigate
  {
    MissingChar(cmd, GoogleSearch, 'c');
    MissingChar(cmd, SearchFor, 'f');
    assert cmd[0..4] == OpenTrigger;
    ContainsAt(cmd, OpenTrigger, 0);
  }

  lemma GithubSite(cmd: string) returns (site: string)
    requires cmd == "open github"
    ensures site == "github" && SiteName(cmd) == site
  {
    site := cmd[5..];
    assert cmd == OpenTrigger + [' '] + site;
    assert !IsSpace(site[0]) && !IsSpace(site[|site| - 1]) && ' ' !in site;
    SiteAfterTrigger(site);
  }

  /** The scenario's texts, spelled out; a lemma of their own keeps the scenario proof small. */
  lemma GithubTexts(cmd: string, site: string)
    requires cmd == "open github" && site == "github"
    ensures YouPrefix + cmd == "You: open github"
    ensures OpeningPrefix + site == "Opening github"
    ensures SiteUrl(site) == "https://www.github.com"
  {
  }

  /** Saying "close tab": the confirmation is heard, then the shortcut is sent once. */
  lemma CloseTabScenario(g: Gate, cmd: string, world: World, runs: seq<SpeechRun>)
    requires cmd == "close tab"
    requires |runs| >= 3 && !g.speaking && runs[0].synthesis == Played
    ensures Perform(g, Dispatch(cmd, world), runs).1 == [Heard(ClosingTab), TabClosed]
  {
    CloseTabRoute(cmd);
    var acts := Dispatch(cmd, world);
    assert acts == CloseTabActions;
    SayThenPress(g, acts, runs, ClosingTab);
  }

  lemma CloseTabRoute(cmd: string)
    requires cmd == "close tab"
    ensures Route(cmd) == CloseTab
  {
    CloseTabMisses(cmd);
    CloseTabHits(cmd);
    RoutingPolicy(cmd);
  }

  lemma CloseTabMisses(cmd: string)
    requires cmd == "close tab"
    ensures !Contains(cmd, GoogleSearch) && !Contains(cmd, SearchFor) && !Contains(cmd, OpenTrigger)
  {
    MissingChar(cmd, GoogleSearch, 'g');
    MissingChar(cmd, SearchFor, 'f');
    MissingChar(cmd, OpenTrigger, 'p');
  }

  lemma CloseTabHits(cmd: string)
    requires cmd == "close tab"
    ensures Contains(cmd, CloseTabTrigger)
  {
    assert cmd[0..9] == CloseTabTrigger;
    ContainsAt(cmd, CloseTabTrigger, 0);
  }

  /** A text spoken with the gate free is heard before the shortcut that follows it is sent. */
  lemma SayThenPress(g: Gate, actions: seq<Action>, runs: seq<SpeechRun>, text: string)
    requires |runs| >= 3 && !g.speaking && runs[0].synthesis == Played
    requires actions == [Say(text), PressCloseTab] && text != []
    ensures Perform(g, actions, runs).1 == [Heard(text), TabClosed]
  {
    PerformFree(g, actions, runs);
    ExpectedOfFew(actions, runs);
  }

  /**
   * A configured search with one result: the query is announced, then the
   * snippet is read out after its prefix.
   */
  lemma EspressoSearch(g: Gate, cmd: string, world: World, runs: seq<SpeechRun>, snippet: string)
    requires cmd == "google search best espresso machine"
    requires snippet == "The X9000 tops our list."
    requires world.config.searchKeys && world.search == Items([SearchItem(Some(snippet))])
    requires |runs| >= 3 && !g.speaking && runs[0].synthesis == Played && runs[1].synthesis == Played
    ensures Perform(g, Dispatch(cmd, world), runs).1
         == [Heard("Searching Google for best espresso machine"),
             Heard("According to Google: The X9000 tops our list.")]
  {
    var query := EspressoQuery(cmd);
    EspressoRoute(cmd);
    EspressoReply(query, snippet);
    EspressoAnnouncement(query);
    EspressoAnswer(snippet);
    var acts := Dispatch(cmd, world);
    assert acts == [Say(SearchingPrefix + query), Say(AccordingToGoogle + snippet)];
    TwoUtterances(g, acts, runs, SearchingPrefix + query, AccordingToGoogle + snippet);
  }

  lemma EspressoRoute(cmd: string)
    requires cmd == "google search best espresso machine"
    ensures Route(cmd) == Search
  {
    assert cmd[0..13] == GoogleSearch;
    ContainsAt(cmd, GoogleSearch, 0);
  }

  lemma EspressoReply(query: string, snippet: string)
    requires query == "best espresso machine" && snippet == "The X9000 tops our list."
    ensures SearchReply(query, Items([SearchItem(Some(snippet))])) == AccordingToGoogle + snippet
  {
    var item := SearchItem(Some(snippet));
    assert '\n' !in snippet;
    SnippetVerbatim(query, item, []);
    assert [item] + [] == [item];
  }

  /** The scenario's texts, spelled out; a lemma each keeps the scenario proof small. */
  lemma EspressoAnnouncement(query: string)
    requires query == "best espresso machine"
    ensures SearchingPrefix + query == "Searching Google for best espresso machine"
  {
  }

  lemma EspressoAnswer(snippet: string)
    requires snippet == "The X9000 tops our list."
    ensures AccordingToGoogle + snippet == "According to Google: The X9000 tops our list."
  {
  }

  /** Two texts spoken in a row by a worker that found the gate free are both heard, in order. */
  lemma TwoUtterances(g: Gate, actions: seq<Action>, runs: seq<SpeechRun>, first: string, second: string)
    requires |runs| >= 3 && !g.speaking && runs[0].synthesis == Played && runs[1].synthesis == Played
    requires actions == [Say(first), Say(second)] && first != [] && second != []
    ensures Perform(g, actions, runs).1 == [Heard(first), Heard(second)]
  {
    PerformFree(g, actions, runs);
    ExpectedOfFew(actions, runs);
  }

  /** The trigger is removed and the remaining space stripped. */
  lemma EspressoQuery(cmd: string) returns (query: string)
    requires cmd == "google search best espresso machine"
    ensures query == "best espresso machine" && SearchQuery(cmd) == query
  {
    query := EspressoParts(cmd);
    EspressoTail([' '] + query);
    QueryAfterTrigger(query);
  }

  lemma EspressoParts(cmd: string) returns (query: string)
    requires cmd == "google search best espresso machine"
    ensures query == "best espresso machine" && cmd == GoogleSearch + [' '] + query
    ensures query != [] && !IsSpace(query[0]) && !IsSpace(query[|query| - 1])
  {
    query := "best espresso machine";
    EspressoConcat(cmd, query);
    assert query[0] == 'b' && query[|query| - 1] == 'e';
  }

  lemma EspressoConcat(cmd: string, query: string)
    requires cmd == "google search best espresso machine" && query == "best espresso machine"
    ensures cmd == GoogleSearch + [' '] + query
  {
  }

  lemma EspressoTail(rest: string)
    requires rest == " best espresso machine"
    ensures !Contains(rest, GoogleSearch) && !Contains(rest, SearchFor)
  {
    MissingChar(rest, GoogleSearch, 'g');
    MissingChar(rest, SearchFor, 'f');
  }

  /**
   * The removal order is observable: removing "google search" first leaves
   * "for x", whose "search for" was broken up.
   */
  lemma RemovalOrder(cmd: string)
    requires cmd == "google search for x"
    ensures SearchQuery(cmd) == "for x"
  {
    var query := cmd[14..];
    assert cmd == GoogleSearch + [' '] + query;
    assert |[' '] + query| < |SearchFor|;
    assert !IsSpace(query[0]) && !IsSpace(query[|query| - 1]);
    QueryAfterTrigger(query);
  }

  /**
   * Typed input is dispatched verbatim while a transcript is lower-cased, so
   * the same words typed with a capital letter miss the "open" trigger.
   */
  lemma TypedInputIsCaseSensitive(typed: string)
    requires typed == "Open github"
    ensures Admit(Typed(typed)).1 == Some(typed) && Route(typed) == Converse
    ensures Admit(Voice(Recognized(typed))).1 == Some("open github")
    ensures Route("open github") == Navigate
  {
    CapitalOpenRoute(typed);
    var lowered := LowerOpenGithub(typed);
    GithubRoute(lowered);
  }

  lemma CapitalOpenRoute(typed: string)
    requires typed == "Open github"
    ensures Route(typed) == Converse
  {
    MissingChar(typed, GoogleSearch, 'c');
    MissingChar(typed, SearchFor, 'f');
    MissingChar(typed, CloseTabTrigger, 'c');
    assert !Contains(typed, OpenTrigger) by {
      forall i: nat ensures !OccursAt(typed, OpenTrigger, i) {
        if i + 4 <= |typed| {
          assert typed[i..i + 4][0] == typed[i];
        }
      }
    }
  }

  lemma LowerOpenGithub(typed: string) returns (lowered: string)
    requires typed == "Open github"
    ensures lowered == "open github" && ToLower(typed) == lowered
  {
    lowered := "open github";
    assert ToLower(typed) == lowered;
  }
}

=== FILE: speech_gate.dfy ===
/**
 * The speech gate around `speak`: one "speaking" flag plus the transient audio
 * files on disk. A call is a no-op when the gate is held or the text is empty;
 * otherwise it takes the gate, synthesises and plays one uniquely named file,
 * and on every exit path tries to delete that file and releases the gate.
 *
 * Only the sequential protocol is modelled: the source's flag is an
 * unsynchronised check-then-set, so nothing here claims exclusion between
 * concurrent callers. Synthesis, playback and deletion are external steps
 * whose outcomes are parameters (`SpeechRun`).
 */
module SpeechGate {
  import opened Wrappers

  datatype Gate = Gate(speaking: bool, artifacts: set<string>)

  /** How the external synthesis-and-playback step ended. */
  datatype Synthesis =
    | SynthesisFailed(leftFile: bool)  // saving the audio raised; `leftFile` if a partial file remains
    | PlaybackFailed                   // the file was written, then loading or playing it raised
    | Played                           // the file was written and played to the end

  /** How deleting the transient file ended. */
  datatype Removal =
    | Removed
    | PermissionDenied                 // the file is still in use; reported and left behind
    | OtherOsError                     // any other OS error from the deletion

  /** The environment of one `speak` call: its file name and the external outcomes. */
  datatype SpeechRun = SpeechRun(artifact: string, synthesis: Synthesis, removal: Removal)

  /** The synthesis step leaves a file on disk. */
  predicate WritesFile(s: Synthesis) {
    !s.SynthesisFailed? || s.leftFile
  }

  /** The result of one call: the new gate state and whether the text was heard. */
  datatype Spoken = Spoken(gate: Gate, audible: bool)

  /** The entry test and flag set of `speak`. */
  function Acquire(g: Gate, text: string): (h: Option<Gate>)
    ensures h.None? <==> g.speaking || text == ""
    ensures h.Some? ==> h.value.speaking && h.value.artifacts == g.artifacts
  {
    if g.speaking || text == "" then None else Some(Gate(true, g.artifacts))
  }

  /** Synthesis and playback: the gate stays held throughout; the file may appear. */
  function Synthesize(h: Gate, run: SpeechRun): (w: Gate)
    requires h.speaking
    ensures w.speaking
    ensures run.artifact in w.artifacts <==> run.artifact in h.artifacts || WritesFile(run.synthesis)
    ensures w.artifacts - {run.artifact} == h.artifacts - {run.artifact}
  {
    if WritesFile(run.synthesis) then Gate(true, h.artifacts + {run.artifact}) else h
  }

  /**
   * The cleanup as written: the deletion handler catches only a permission
   * error, so any other OS error escapes before the flag is cleared.
   */
  function CleanupAsWritten(w: Gate, run: SpeechRun): (e: Gate)
    ensures run.artifact in w.artifacts && run.removal == OtherOsError ==> e == w
    ensures !(run.artifact in w.artifacts && run.removal == OtherOsError) ==> !e.speaking
  {
    if run.artifact !in w.artifacts then Gate(false, w.artifacts)
    else match run.removal
      case Removed => Gate(false, w.artifacts - {run.artifact})
      case PermissionDenied => Gate(false, w.artifacts)
      case OtherOsError => w
  }

  /** The cleanup as intended: every deletion failure is reported and the gate is released. */
  function Cleanup(w: Gate, run: SpeechRun): (e: Gate)
    ensures !e.speaking
    ensures e.artifacts - {run.artifact} == w.artifacts - {run.artifact}
    ensures run.artifact in e.artifacts <==> run.artifact in w.artifacts && run.removal != Removed
  {
    if run.artifact in w.artifacts && run.removal == Removed then Gate(false, w.artifacts - {run.artifact})
    else Gate(false, w.artifacts)
  }

  /**
   * As written, the call's deletion raises an error that escapes `speak`: the
   * call went ahead, its file existed at the cleanup, and deleting it failed
   * with an OS error other than a permission error.
   */
  predicate EscapesAsWritten(g: Gate, text: string, run: SpeechRun) {
    && !g.speaking && text != ""
    && (run.artifact in g.artifacts || WritesFile(run.synthesis))
    && run.removal == OtherOsError
  }

  /** `speak` with the cleanup as written. */
  function SpeakAsWritten(g: Gate, text: string, run: SpeechRun): (r: Spoken)
    ensures g.speaking || text == "" ==> r == Spoken(g, false)
    ensures !g.speaking && text != "" ==> (r.gate.speaking <==> EscapesAsWritten(g, text, run))
  {
    match Acquire(g, text)
    case None => Spoken(g, false)
    case Some(h) => Spoken(CleanupAsWritten(Synthesize(h, run), run), run.synthesis.Played?)
  }

  /** `speak` with the gate released on every exit path. */
  function Speak(g: Gate, text: string, run: SpeechRun): (r: Spoken)
    ensures g.speaking || text == "" ==> r == Spoken(g, false)
    ensures !g.speaking && text != "" ==>
      && !r.gate.speaking
      && r.gate.artifacts - {run.artifact} == g.artifacts - {run.artifact}
      && (run.artifact in r.gate.artifacts <==>
            run.removal != Removed && (run.artifact in g.artifacts || WritesFile(run.synthesis)))
      && (r.audible <==> run.synthesis == Played)
  {
    match Acquire(g, text)
    case None => Spoken(g, false)
    case Some(h) => Spoken(Cleanup(Synthesize(h, run), run), run.synthesis.Played?)
  }

  /** Once the gate is taken, a second entry before the release is refused. */
  lemma NoSecondAcquire(g: Gate, first: string, second: string)
    requires Acquire(g, first).Some?
    ensures Acquire(Acquire(g, first).value, second).None?
  {
  }

  /** Where deletion succeeds or is refused for a permission error, the two cleanups agree. */
  lemma AsWrittenAgrees(g: Gate, text: string, run: SpeechRun)
    requires run.removal != OtherOsError
    ensures SpeakAsWritten(g, text, run) == Speak(g, text, run)
  {
  }

  /** Unless the deletion error escapes, the as-written and intended calls agree. */
  lemma AgreesUnlessEscapes(g: Gate, text: string, run: SpeechRun)
    requires !EscapesAsWritten(g, text, run)
    ensures SpeakAsWritten(g, text, run) == Speak(g, text, run)
  {
    if !g.speaking && text != "" {
      var w := Synthesize(Gate(true, g.artifacts), run);
      assert run.artifact in w.artifacts ==> run.removal != OtherOsError;
    }
  }

  /**
   * As written, a deletion failure other than a permission error leaves the
   * gate held, and from then on every call is a silent no-op.
   */
  lemma GateStuckAsWritten(g: Gate, text: string, run: SpeechRun)
    requires !g.speaking && text != "" && WritesFile(run.synthesis) && run.removal == OtherOsError
    ensures SpeakAsWritten(g, text, run).gate.speaking
    ensures forall t, next :: SpeakAsWritten(SpeakAsWritten(g, text, run).gate, t, next).audible == false
  {
    var w := Synthesize(Gate(true, g.artifacts), run);
    assert run.artifact in w.artifacts;
  }

  /** A concrete run that shows the stuck gate: the file vanishes before it can be deleted. */
  lemma StuckGateExample()
    ensures var first := SpeakAsWritten(Gate(false, {}), "Opening github", SpeechRun("output_1.mp3", Played, OtherOsError));
      && first.gate.speaking
      && !SpeakAsWritten(first.gate, "Closing the tab.", SpeechRun("output_2.mp3", Played, Removed)).audible
  {
    GateStuckAsWritten(Gate(false, {}), "Opening github", SpeechRun("output_1.mp3", Played, OtherOsError));
  }
}

=== FILE: text.dfy ===
/**
 * The Python string operations the assistant's decision logic is built from,
 * over `string` (a sequence of Unicode scalar values):
 *   - `pat in s`                 as `Contains`
 *   - `s.split(sep, 1)[-1]`      as `SuffixAfterFirst`
 *   - `s.split(sep)`, `x.join`   as `Split`, `Join`
 *   - `s.replace(pat, rep)`      as `ReplaceAll` (non-overlapping, left to right)
 *   - `s.strip()`                as `Strip`
 *   - `s.lower()`                as `ToLower` (ASCII letters only)
 */
module Text {
  import opened Wrappers

  /** Python's `str.isspace()` for one character: exactly what `strip()` removes. */
  predicate IsSpace(c: char) {
    || ('\t' <= c <= '\r')
    || ('\U{1C}' <= c <= ' ')
    || c == '\U{85}' || c == '\U{A0}' || c == '\U{1680}'
    || ('\U{2000}' <= c <= '\U{200A}')
    || c == '\U{2028}' || c == '\U{2029}' || c == '\U{202F}' || c == '\U{205F}' || c == '\U{3000}'
  }

  ghost predicate AllSpace(s: string) {
    forall k :: 0 <= k < |s| ==> IsSpace(s[k])
  }

  /** `pat` occurs in `s` starting at index `i`. */
  predicate OccursAt(s: string, pat: string, i: nat) {
    i + |pat| <= |s| && s[i..i + |pat|] == pat
  }

  /** `i` is the leftmost occurrence of `pat` in `s`. */
  ghost predicate FirstAt(s: string, pat: string, i: nat) {
    OccursAt(s, pat, i) && forall j: nat :: j < i ==> !OccursAt(s, pat, j)
  }

  /** Leftmost occurrence of `pat` in `s` at or after `k`. */
  function IndexFrom(s: string, pat: string, k: nat): (r: Option<nat>)
    requires k <= |s|
    ensures r.Some? ==> k <= r.value && OccursAt(s, pat, r.value)
    ensures r.Some? ==> forall j: nat :: k <= j < r.value ==> !OccursAt(s, pat, j)
    ensures r.None? ==> forall j: nat :: k <= j ==> !OccursAt(s, pat, j)
    decreases |s| - k
  {
    if OccursAt(s, pat, k) then Some(k)
    else if k == |s| then None
    else IndexFrom(s, pat, k + 1)
  }

  /** Python's `s.find(pat)`, with `None` for -1. */
  function IndexOf(s: string, pat: string): (r: Option<nat>)
    ensures r.Some? ==> FirstAt(s, pat, r.value)
    ensures r.None? ==> forall j: nat :: !OccursAt(s, pat, j)
  {
    IndexFrom(s, pat, 0)
  }

  /** Python's substring test `pat in s`. */
  function Contains(s: string, pat: string): (b: bool)
    ensures b <==> exists i: nat :: OccursAt(s, pat, i)
  {
    IndexOf(s, pat).Some?
  }

  /**
   * Python's `s.split(sep, 1)[-1]`: the text after the first `sep`, or all of
   * `s` when `sep` does not occur.
   */
  function SuffixAfterFirst(s: string, sep: string): (r: string)
    ensures !Contains(s, sep) ==> r == s
    ensures Contains(s, sep) ==>
      && |r| + |sep| <= |s|
      && FirstAt(s, sep, |s| - |r| - |sep|)
      && r == s[|s| - |r|..]
  {
    match IndexOf(s, sep)
    case None => s
    case Some(i) => s[i + |sep|..]
  }

  /** The text before the first occurrence of `pat` never contains `pat`. */
  lemma NoneBeforeFirst(s: string, pat: string, i: nat)
    requires |pat| > 0 && FirstAt(s, pat, i)
    ensures !Contains(s[..i], pat)
  {
    forall j: nat ensures !OccursAt(s[..i], pat, j) {
      if j + |pat| <= i {
        assert s[..i][j..j + |pat|] == s[j..j + |pat|];
        assert !OccursAt(s, pat, j);
      }
    }
  }

  /** Python's `s.split(pat)` for a non-empty separator. */
  function Split(s: string, pat: string): (parts: seq<string>)
    requires |pat| > 0
    ensures |parts| >= 1
    ensures forall k :: 0 <= k < |parts| ==> !Contains(parts[k], pat)
    decreases |s|
  {
    match IndexOf(s, pat)
    case None => [s]
    case Some(i) =>
      NoneBeforeFirst(s, pat, i);
      [s[..i]] + Split(s[i + |pat|..], pat)
  }

  /** Python's `sep.join(parts)`. */
  function Join(parts: seq<string>, sep: string): string
    decreases |parts|
  {
    if |parts| == 0 then ""
    else if |parts| == 1 then parts[0]
    else parts[0] + sep + Join(parts[1..], sep)
  }

  /** Python's `s.replace(pat, rep)` for a non-empty `pat`. */
  function ReplaceAll(s: string, pat: string, rep: string): (r: string)
    requires |pat| > 0
    ensures !Contains(s, pat) ==> r == s
    ensures |rep| <= |pat| ==> |r| <= |s|
    decreases |s|
  {
    match IndexOf(s, pat)
    case None => s
    case Some(i) => s[..i] + rep + ReplaceAll(s[i + |pat|..], pat, rep)
  }

  /** Removing a pattern from a text that starts with it, and holds it nowhere else, leaves the rest. */
  lemma ReplaceLeading(pat: string, rest: string)
    requires |pat| > 0 && !Contains(rest, pat)
    ensures ReplaceAll(pat + rest, pat, "") == rest
  {
    var s := pat + rest;
    assert s[0..|pat|] == pat;
    assert OccursAt(s, pat, 0);
    assert IndexOf(s, pat) == Some(0);
    assert s[|pat|..] == rest;
  }

  /** Splitting at the first occurrence: the text before it, then the split of the rest. */
  lemma SplitFirst(s: string, pat: string, i: nat)
    requires |pat| > 0 && IndexOf(s, pat) == Some(i)
    ensures i + |pat| <= |s| && s == s[..i] + pat + s[i + |pat|..]
    ensures Split(s, pat) == [s[..i]] + Split(s[i + |pat|..], pat)
  {
    assert s[i..i + |pat|] == pat;
    assert s == s[..i] + s[i..i + |pat|] + s[i + |pat|..];
  }

  /** Joining a list of two or more parts puts the separator after the first. */
  lemma JoinCons(a: string, tail: seq<string>, sep: string)
    requires |tail| >= 1
    ensures Join([a] + tail, sep) == a + sep + Join(tail, sep)
  {
    assert ([a] + tail)[0] == a && ([a] + tail)[1..] == tail;
  }

  /** Splitting on a separator and joining with it again gives back the input. */
  lemma {:induction false} JoinSplit(s: string, pat: string)
    requires |pat| > 0
    ensures Join(Split(s, pat), pat) == s
    decreases |s|
  {
    match IndexOf(s, pat)
    case None =>
    case Some(i) =>
      var rest := s[i + |pat|..];
      JoinSplit(rest, pat);
      SplitFirst(s, pat, i);
      JoinCons(s[..i], Split(rest, pat), pat);
  }

  /** `replace` is `split` followed by `join` with the replacement. */
  lemma {:induction false} ReplaceAllIsJoinSplit(s: string, pat: string, rep: string)
    requires |pat| > 0
    ensures ReplaceAll(s, pat, rep) == Join(Split(s, pat), rep)
    decreases |s|
  {
    match IndexOf(s, pat)
    case None =>
    case Some(i) =>
      var rest := s[i + |pat|..];
      ReplaceAllIsJoinSplit(rest, pat, rep);
      SplitFirst(s, pat, i);
      JoinCons(s[..i], Split(rest, pat), rep);
  }

  /** Replacing a pattern by itself changes nothing. */
  lemma ReplaceAllSelf(s: string, pat: string)
    requires |pat| > 0
    ensures ReplaceAll(s, pat, pat) == s
  {
    ReplaceAllIsJoinSplit(s, pat, pat);
    JoinSplit(s, pat);
  }

  /** Reference definition of replacing one character: every `c` becomes `rep`. */
  function ReplaceChar(s: string, c: char, rep: string): (r: string)
    ensures c !in rep ==> c !in r
    ensures |rep| == 1 ==> |r| == |s|
    decreases |s|
  {
    if |s| == 0 then []
    else (if s[0] == c then rep else [s[0]]) + ReplaceChar(s[1..], c, rep)
  }

  /** Removing a character drops exactly its occurrences and keeps every other character. */
  lemma {:induction false} ReplaceCharRemoves(s: string, c: char)
    ensures multiset(ReplaceChar(s, c, [])) == multiset(s)[c := 0]
    decreases |s|
  {
    if |s| > 0 {
      ReplaceCharRemoves(s[1..], c);
      assert s == [s[0]] + s[1..];
    }
  }

  lemma {:induction false} ReplaceCharConcat(a: string, b: string, c: char, rep: string)
    ensures ReplaceChar(a + b, c, rep) == ReplaceChar(a, c, rep) + ReplaceChar(b, c, rep)
    decreases |a|
  {
    if |a| > 0 {
      assert (a + b)[1..] == a[1..] + b;
      ReplaceCharConcat(a[1..], b, c, rep);
    } else {
      assert a + b == b;
    }
  }

  lemma {:induction false} ReplaceCharAbsent(s: string, c: char, rep: string)
    requires c !in s
    ensures ReplaceChar(s, c, rep) == s
    decreases |s|
  {
    if |s| > 0 {
      ReplaceCharAbsent(s[1..], c, rep);
    }
  }

  /** A one-character pattern occurs exactly where that character is. */
  lemma OneCharOccurs(s: string, c: char, k: nat)
    ensures OccursAt(s, [c], k) <==> k < |s| && s[k] == c
  {
    if k < |s| {
      assert s[k..k + 1] == [s[k]];
    }
  }

  lemma FirstOneChar(s: string, c: char, i: nat)
    requires FirstAt(s, [c], i)
    ensures i < |s| && s[i] == c && c !in s[..i]
  {
    OneCharOccurs(s, c, i);
    forall k | 0 <= k < i ensures s[..i][k] != c {
      OneCharOccurs(s, c, k);
    }
  }

  lemma NoOneChar(s: string, c: char)
    requires forall j: nat :: !OccursAt(s, [c], j)
    ensures c !in s
  {
    forall k | 0 <= k < |s| ensures s[k] != c {
      OneCharOccurs(s, c, k);
    }
  }

  /** `s.replace(c, rep)` for a one-character pattern agrees with the reference definition. */
  lemma {:induction false} ReplaceAllOneChar(s: string, c: char, rep: string)
    ensures ReplaceAll(s, [c], rep) == ReplaceChar(s, c, rep)
    decreases |s|
  {
    match IndexOf(s, [c])
    case None =>
      NoOneChar(s, c);
      ReplaceCharAbsent(s, c, rep);
    case Some(i) =>
      var rest := s[i + 1..];
      assert ReplaceAll(s, [c], rep) == s[..i] + rep + ReplaceAll(rest, [c], rep);
      ReplaceAllOneChar(rest, c, rep);
      FirstOneChar(s, c, i);
      ReplaceCharAtFirst(s, c, rep, i);
  }

  /** The reference definition around the first occurrence of the character. */
  lemma ReplaceCharAtFirst(s: string, c: char, rep: string, i: nat)
    requires i < |s| && s[i] == c && c !in s[..i]
    ensures ReplaceChar(s, c, rep) == s[..i] + rep + ReplaceChar(s[i + 1..], c, rep)
  {
    var rest := s[i + 1..];
    ReplaceCharAbsent(s[..i], c, rep);
    assert s == s[..i] + ([c] + rest);
    ReplaceCharConcat(s[..i], [c] + rest, c, rep);
    ReplaceCharHead(c, rest, rep);
  }

  lemma ReplaceCharHead(c: char, rest: string, rep: string)
    ensures ReplaceChar([c] + rest, c, rep) == rep + ReplaceChar(rest, c, rep)
  {
    assert ([c] + rest)[0] == c && ([c] + rest)[1..] == rest;
  }

  /** Removing a character never touches a first or last character that differs from it. */
  lemma ReplaceCharKeepsEnds(s: string, c: char)
    requires |s| > 0 && s[0] != c && s[|s| - 1] != c
    ensures var r := ReplaceChar(s, c, []); |r| > 0 && r[0] == s[0] && r[|r| - 1] == s[|s| - 1]
  {
    var init := s[..|s| - 1];
    assert s == init + [s[|s| - 1]];
    ReplaceCharConcat(init, [s[|s| - 1]], c, []);
    assert ReplaceChar([s[|s| - 1]], c, []) == [s[|s| - 1]] + ReplaceChar([], c, []);
  }

  /** Python's `s.lstrip()`. */
  function TrimStart(s: string): (r: string)
    ensures |r| <= |s| && r == s[|s| - |r|..]
    ensures AllSpace(s[..|s| - |r|])
    ensures r == [] || !IsSpace(r[0])
    decreases |s|
  {
    if |s| > 0 && IsSpace(s[0]) then
      var r := TrimStart(s[1..]);
      TrimStartStep(s, r);
      r
    else s
  }

  /** Dropping one more leading blank keeps the suffix and the all-blank prefix. */
  lemma TrimStartStep(s: string, r: string)
    requires |s| > 0 && IsSpace(s[0])
    requires |r| <= |s| - 1 && r == s[1..][|s| - 1 - |r|..] && AllSpace(s[1..][..|s| - 1 - |r|])
    ensures r == s[|s| - |r|..] && AllSpace(s[..|s| - |r|])
  {
    var n := |s| - |r|;
    assert s[..n] == [s[0]] + s[1..][..n - 1];
    forall k | 0 <= k < n ensures IsSpace(s[..n][k]) {
      if k > 0 {
        assert s[..n][k] == s[1..][..n - 1][k - 1];
      }
    }
  }

  /** Python's `s.rstrip()`. */
  function TrimEnd(s: string): (r: string)
    ensures |r| <= |s| && r == s[..|r|]
    ensures AllSpace(s[|r|..])
    ensures r == [] || !IsSpace(r[|r| - 1])
    decreases |s|
  {
    if |s| > 0 && IsSpace(s[|s| - 1]) then TrimEnd(s[..|s| - 1]) else s
  }

  /**
   * `r` is `s` with a whitespace-only prefix of length `i` and a whitespace-only
   * suffix removed, and `r` neither starts nor ends with whitespace.
   */
  ghost predicate StrippedAt(s: string, r: string, i: nat) {
    && i + |r| <= |s|
    && r == s[i..i + |r|]
    && AllSpace(s[..i])
    && AllSpace(s[i + |r|..])
    && (r == [] || (!IsSpace(r[0]) && !IsSpace(r[|r| - 1])))
  }

  /** Python's `s.strip()` with no argument. */
  function Strip(s: string): (r: string)
    ensures exists i: nat :: StrippedAt(s, r, i)
  {
    var t := TrimStart(s);
    var r := TrimEnd(t);
    var i := |s| - |t|;
    assert |r| == 0 ==> t[|r|..] == t;
    assert s[i + |r|..] == t[|r|..];
    assert r == s[i..i + |r|];
    assert StrippedAt(s, r, i);
    r
  }

  /** What `strip()` returns is fully determined by `StrippedAt`. */
  lemma StrippedAtUnique(s: string, r1: string, i1: nat, r2: string, i2: nat)
    requires StrippedAt(s, r1, i1) && StrippedAt(s, r2, i2)
    ensures r1 == r2
  {
    forall k | 0 <= k < i1 ensures IsSpace(s[k]) {
      assert s[..i1][k] == s[k];
    }
    forall k | 0 <= k < i2 ensures IsSpace(s[k]) {
      assert s[..i2][k] == s[k];
    }
    forall k | i1 + |r1| <= k < |s| ensures IsSpace(s[k]) {
      assert s[i1 + |r1|..][k - i1 - |r1|] == s[k];
    }
    forall k | i2 + |r2| <= k < |s| ensures IsSpace(s[k]) {
      assert s[i2 + |r2|..][k - i2 - |r2|] == s[k];
    }
    assert r1 != [] ==> !IsSpace(s[i1]) && !IsSpace(s[i1 + |r1| - 1]);
    assert r2 != [] ==> !IsSpace(s[i2]) && !IsSpace(s[i2 + |r2| - 1]);
    assert (r1 == []) == (r2 == []);
    if r1 != [] {
      assert i1 == i2;
      assert |r1| == |r2|;
    }
  }

  /** A text that neither starts nor ends with whitespace is left alone by `strip()`. */
  lemma StripUnchanged(s: string)
    requires s == [] || (!IsSpace(s[0]) && !IsSpace(s[|s| - 1]))
    ensures Strip(s) == s
  {
    assert s[0..|s|] == s;
    assert StrippedAt(s, s, 0);
    var j: nat :| StrippedAt(s, Strip(s), j);
    StrippedAtUnique(s, s, 0, Strip(s), j);
  }

  /** Stripping twice is stripping once. */
  lemma StripIdempotent(s: string)
    ensures Strip(Strip(s)) == Strip(s)
  {
    var i: nat :| StrippedAt(s, Strip(s), i);
    StripUnchanged(Strip(s));
  }

  /** One leading blank before a text with non-whitespace ends is all that `strip()` removes. */
  lemma StripOneLeadingSpace(w: string)
    requires w != [] && !IsSpace(w[0]) && !IsSpace(w[|w| - 1])
    ensures Strip([' '] + w) == w
  {
    StripLeadingSpace(' ', w);
    StripUnchanged(w);
  }

  /** A leading whitespace character makes no difference to `strip()`. */
  lemma StripLeadingSpace(c: char, w: string)
    requires IsSpace(c)
    ensures Strip([c] + w) == Strip(w)
  {
    assert ([c] + w)[1..] == w;
  }

  predicate IsAsciiUpper(c: char) {
    'A' <= c <= 'Z'
  }

  function LowerChar(c: char): char {
    if IsAsciiUpper(c) then (c as int + 32) as char else c
  }

  /** Python's `s.lower()`, restricted to the ASCII letters. */
  function ToLower(s: string): (r: string)
    ensures |r| == |s|
    ensures forall k :: 0 <= k < |r| ==> !IsAsciiUpper(r[k])
    ensures forall k :: 0 <= k < |s| && !IsAsciiUpper(s[k]) ==> r[k] == s[k]
    ensures forall k :: 0 <= k < |s| && IsAsciiUpper(s[k]) ==> r[k] as int == s[k] as int + 32
  {
    seq(|s|, k requires 0 <= k < |s| => LowerChar(s[k]))
  }

  /** Lowering works character by character, so it distributes over concatenation. */
  lemma ToLowerConcat(a: string, b: string)
    ensures ToLower(a + b) == ToLower(a) + ToLower(b)
  {
    assert forall k :: 0 <= k < |a| ==> (a + b)[k] == a[k];
    assert forall k :: |a| <= k < |a| + |b| ==> (a + b)[k] == b[k - |a|];
  }

  /** Lowering twice is lowering once. */
  lemma ToLowerIdempotent(s: string)
    ensures ToLower(ToLower(s)) == ToLower(s)
  {
  }
}

=== FILE: wrappers.dfy ===
/** Optional values, used for partial lookups and for answers that may be absent. */
module Wrappers {

  datatype Option<+T> = None | Some(value: T) {

    /** The wrapped value, or `default` when there is none. */
    function GetOr(default: T): T {
      match this
      case Some(v) => v
      case None => default
    }
  }
}
